=== FILE: README.md ===
# BH1750 illuminance sensor for Signal K — a Dafny model

This project models the core of a small SensESP application. The application samples a BH1750 ambient-light meter on a repeating timer and publishes the reading as a Signal K illuminance value. The model has three parts:

- **`MyRepeatSensor<T>`** (module `RepeatSensor`). A sensor that owns one handle into the event loop's registry of repeating events. It is built with either a *returning* callback (the timer emits the callback's result) or an *emitting* callback (the callback is handed the sensor). Changing the interval or applying a configuration reschedules it: the held registration is removed and a replacement is installed. The event loop is modelled as a map from event ids to registrations (module `EventLoop`). Each registration records its interval, the object whose lambda it runs, and which callback that lambda calls. The configuration document is a map from member names to JSON values (module `Json`). The central invariant is `RepeatSensor.Sound`: exactly one callback form is set, and the sensor owns exactly one live registration, the one it holds, at its current interval.
- **`LightSensor`** (module `LightSensor`, device stub in module `Bh1750`). A repeat sensor of lux values with a 1000 ms default interval, built with the returning form. Its callback polls `measurementReady(true)` and yields after every negative answer. Once the device is ready, the callback reads once, re-arms the device in one-shot high-resolution mode and returns the raw reading unchanged. The device is a script of poll answers plus a trace of the calls made to it and of the yields. A reading is an opaque `real` that is passed through. This sensor's `from_json` override refuses a configuration without an unsigned `repeat_interval_ms`. The base class accepts such a configuration and ignores it.
- **Signal K naming** (module `Illuminance`). Three pure string functions map a sensor location to a Signal K path, a configuration path and a status-page title. "inside" and "outside" are special cases. The model proves that the special cases agree with the general formula, and that the location can be recovered from the path.

The program does not adapt the sensor's integration time (MTreg) or its resolution mode to the light level. `adjust_MTreg` is declared in `src/light_sensor.h:54` but never defined, and every read re-arms the same `ONE_TIME_HIGH_RES_MODE` (`src/light_sensor.cpp:38`). The model follows the code, so it has no lux bands and no register table. `prior_lux` and `prior_MTreg` keep their initial values -2 and 0x45, and no operation changes them.

The source takes the interval as an `unsigned int` and never rejects 0; `UInt32` admits 0.

## Model

| member | source | states |
|---|---|---|
| EventLoop.OnRepeat | src/my_repeat_sensor.h:31-33 | registering returns a handle that was not live before; the registry gains exactly that entry, with the given owner, interval and action; other owners' registrations are untouched |
| EventLoop.Remove | src/my_repeat_sensor.h:67 | after removal the handle is not live; every other registration is kept unchanged; each owner loses at most that one registration |
| Json.ReadInterval | src/my_repeat_sensor.h:90-91 | a value is read exactly when `repeat_interval_ms` is present and holds an integer in the unsigned 32-bit range, and the value is that integer |
| Json.WriteInterval | src/my_repeat_sensor.h:85 | after writing, reading the member gives back the written interval; every other member is kept |
| RepeatSensor.Reschedule | src/my_repeat_sensor.h:65-82 | the held registration is removed before any replacement is installed; a null handle is logged exactly when there was none; when a callback is set, one fresh registration is installed with the current interval, and it runs the emitting callback if that is set, else the returning one; when no callback is set, an error is logged and nothing is installed; other sensors' registrations are unchanged |
| RepeatSensor.RescheduleFramesOthers | src/my_repeat_sensor.h:65-81 | rescheduling one sensor keeps every other sound sensor sound |
| RepeatSensor.RescheduleKeepsSound | src/my_repeat_sensor.h:65-78 | rescheduling a sensor that owns only its held registration leaves it owning exactly one registration (the new one), with no error logged |
| RepeatSensor.SetRepeatIntervalMs | src/my_repeat_sensor.h:60-63 | the interval becomes `v`; a sound sensor stays sound; its one live registration repeats at `v`; the old registration is gone |
| RepeatSensor.FromJson | src/my_repeat_sensor.h:89-94 | always reports success; changes nothing unless `repeat_interval_ms` holds an unsigned int, in which case the sensor takes that interval through `set_repeat_interval_ms` and stays sound |
| RepeatSensor.ToJson | src/my_repeat_sensor.h:84-87 | always reports success; the written document carries the current interval and keeps its other members |
| RepeatSensor.FromJsonThenToJson | src/my_repeat_sensor.h:84-94 | after a configuration carrying `v` is applied, the report carries `v`, and the sensor is still sound |
| RepeatSensor.ToJsonThenFromJson | src/my_repeat_sensor.h:84-94 | applying a sensor's own report changes nothing except the handle; the old registration is retired and soundness is kept |
| RepeatSensor.Emit | src/my_repeat_sensor.h:32 | emitting makes the value the sensor's output and changes nothing else |
| RepeatSensor.Fire | src/my_repeat_sensor.h:31-33 | a firing calls an empty function (`std::bad_function_call`) exactly when the callback slot its lambda uses is empty; otherwise a returning-form firing emits exactly the callback's value, an emitting-form firing leaves as output the last value the callback emits (the sensor is unchanged if it emits nothing), and nothing but the output changes |
| RepeatSensor.ConstructAsWritten | src/my_repeat_sensor.h:25-58 | the constructors as written: the new sensor holds a live registration at its stored interval, running the lambda of the overload used; when nothing is persisted (or the persisted member is not an unsigned int), the result is exactly that of `RepeatSensor.Construct`, so it adds one registration, logs nothing, and is sound for a new identity with a non-empty callback |
| RepeatSensor.ConstructAsWrittenDoubleRegisters | src/my_repeat_sensor.h:30-33 | with a persisted unsigned `repeat_interval_ms`, the new sensor owns two live registrations, a null handle is logged, and the sensor is not sound |
| RepeatSensor.ConstructAsWrittenExample | src/my_repeat_sensor.h:25-34 | a returning sensor built with 1000 on an empty loop, with 500 persisted, owns registrations 0 and 1, both at 500 |
| RepeatSensor.Construct | src/my_repeat_sensor.h:25-58 | the stored interval (or the persisted one, if present) is kept; only the chosen overload's callback slot can be set, and it is set exactly when the callback is non-empty; exactly one fresh registration is added for this sensor, at that interval and running that overload's lambda, so a sensor with a new identity and a non-empty callback is sound |
| RepeatSensor.EmptyCallbackLosesRegistration | src/my_repeat_sensor.h:72-81 | a sensor built with an empty callback owns one registration, but its first reschedule logs that no callback is set, removes that registration and installs nothing, leaving it owning none and holding a handle that is no longer live |
| Bh1750.LeadingNotReady | src/light_sensor.cpp:33-36 | the count of negative poll answers before the first ready one: all answers before it are "not ready", and the answer at it, if any, is ready |
| LightSensor.New | src/light_sensor.cpp:7-16 | a light sensor uses the returning form only, at a 1000 ms interval unless one is persisted; it keeps its location and address, starts with prior lux -2 and prior MTreg 0x45, has the title "<location> light sensor", and owns one registration that emits the callback's result |
| LightSensor.NewDefaults | src/light_sensor.h:17-27 | with default arguments the address is the low address 0x23 (not the alternative 0x5C), the location is "outside" and the interval is 1000 ms |
| LightSensor.Begin | src/light_sensor.cpp:18-25 | `begin` initialises the device exactly once, in one-shot high-resolution mode at the stored address; a failure is only reported, with no retry |
| LightSensor.ReadLightLevel | src/light_sensor.cpp:32-40 | a reading is returned exactly when some poll answers "ready", and it is that answer's raw value, unchanged; the trace is the negative polls, each followed by a yield, then the ready poll, one read and one re-arm; if the script ends first, every poll was negative and there is no read |
| LightSensor.WaitOpsShape | src/light_sensor.cpp:33-36 | waiting through `n` negative polls yields exactly `n` times, and issues no read and no configure |
| LightSensor.WaitOpsAlternate | src/light_sensor.cpp:33-36 | while waiting, each poll is directly followed by its yield: polls sit at the even positions, yields at the odd ones |
| LightSensor.WaitOpsCounts | src/light_sensor.cpp:33-36 | waiting through `n` negative polls makes exactly `n` polls and `n` yields, and no read or configure |
| LightSensor.ReadCycleTrace | src/light_sensor.cpp:33-39 | a completed cycle yields once per negative poll, reads nothing before the ready poll, reads exactly once, then configures exactly once, always in one-shot high-resolution mode, and that configure is the last operation |
| LightSensor.Fire | src/light_sensor.cpp:13 | a firing of the light sensor emits exactly the raw value of the first ready answer and re-arms the device; while the device is still busy nothing is emitted or read; location, address and diagnostics never change |
| LightSensor.FromJson | src/light_sensor.h:38-45 | reports success exactly when `repeat_interval_ms` holds an unsigned int; otherwise nothing changes; on success the interval, and the one live registration's interval, become that value |
| LightSensor.FromJsonAgreesWithBase | src/light_sensor.h:38-45 | the override and the base `from_json` produce the same sensor and loop; they report differently exactly when the member is missing or not an unsigned int |
| LightSensor.ToJson | src/light_sensor.h:33-36 | always reports success and writes the current interval, keeping the document's other members |
| LightSensor.ConfigRoundTrip | src/light_sensor.h:33-45 | after an accepted configuration, the report carries the applied value; the sensor accepts its own report and keeps its interval |
| Illuminance.SkPathForLocation | src/illuminance.cpp:21-30 | every location, "inside" and "outside" included, maps to "environment." + location + ".illuminance" |
| Illuminance.SkOutConfigPath | src/illuminance.cpp:32-41 | every location, the special cases included, maps to "/config/output/" + location + "/illuminance" |
| Illuminance.StatusPageItemName | src/illuminance.cpp:44-52 | every location, the special cases included, maps to "Value sent to SK from '" + location + "' light sensor" |
| Illuminance.LocationOfSkPath | src/illuminance.cpp:26-28 | any location read back from a path is one whose Signal K path is exactly that path |
| Illuminance.SkPathRecoversLocation | src/illuminance.cpp:21-30 | stripping the prefix and the suffix from a location's Signal K path gives back the location, so distinct locations have distinct paths |
| Illuminance.ConfigAndStatusRecoverLocation | src/illuminance.cpp:32-52 | the configuration path and the status title each give back the location they were built from |
| Illuminance.NewOutputWith | src/illuminance.cpp:63-72 | the output uses the given path and configuration path with unit "lux"; the status item has the given name, initial value -1 and the "Illuminance Sensors" group; the configuration title names the location |
| Illuminance.NewOutput | src/illuminance.cpp:55-61 | all three names are derived from the same location, the unit is "lux", and the location can be read back from the Signal K path |

## Left out

- The adaptive lux-band / MTreg policy. `adjust_MTreg` has no definition, so there is nothing to model.
- Real time. The event loop's timing, `tick`, the meaning of `yield` and the endless loop in `src/main.cpp` are not modelled. A registration is only an interval and an action, and a yield is an entry in the trace.
- The BH1750 driver and the I2C bus. `begin`'s success is a parameter. Poll answers and readings come from a script. Lux is an opaque `real`, with no floating-point semantics.
- `load()` belongs to the framework and is not part of this model. The constructors take the document it would pass to `from_json` as the `stored` parameter: `None` when there is no configuration path or nothing was saved.
- The emitting callback's own effects, and observers. `emit` is modelled as setting the output. Observer notification and the value-logging observer that `begin` attaches are out of scope.
- Logging text. A logged error is a `Fault` value, and the `begin` outcome is a `BeginLog` value.
- Signal K output, `ConfigItem` and `StatusPageItem` behaviour. Only the values the constructors hand them are modelled. The status item's order is left out because `kUIOrder1` (`src/illuminance.cpp:69`) is declared in none of the files. The only order constant that is declared is `kUIOrder` = 100.
- The `ConfigSchema` JSON literals. They are constant strings.
- String lifetimes. The general branches of the three naming functions return `c_str()` of a temporary `String`, which dangles once the function returns. The model gives the string value those branches evidently intend.
- `MyRepeatSensor<T>` is instantiated only with `float`, so the model fixes the produced value to an opaque `real` (`RepeatSensor.Value`) instead of a type parameter.
- The JSON document is a flat map from member names to scalar values; nested objects and arrays are not modelled.
- LightSensor.ReadLightLevel: when the device never becomes ready, the source polls forever. The model runs on a finite script and returns `Pending` when the script ends, without reading.
- LightSensor.New: built on the corrected constructor `RepeatSensor.Construct`, not on the constructor as written (see Findings). The LightSensor constructor passes its configuration path to the base class, and `load()` runs inside the base constructor. So a persisted configuration would go to the base `from_json`, not the override.
- RepeatSensor.Fire: the emitting callback's effects other than emitting are not modelled; the value it emits is a parameter. A call of an empty callback is reported as `BadFunctionCall`; what the thrown exception does to the event loop is not modelled.
- EventLoop.Remove: after the no-callback branch of `reschedule` the sensor keeps a handle to a removed registration, and a later `reschedule` passes it to `remove` again. What the event loop does with such a handle is not defined in these files; the model treats it as a no-op that logs nothing.

## Findings

| source | as written | input that shows it | evidently intended | confidence | as-written member | corrected member |
|---|---|---|---|---|---|---|
| src/my_repeat_sensor.h:30-31 | both constructors call `load()` before `onRepeat`. A persisted `repeat_interval_ms` reaches `from_json` → `set_repeat_interval_ms` → `reschedule`. With the handle still null, that logs an error and installs a registration. The constructor then installs a second one and overwrites the handle, which orphans the first | a sensor constructed with interval 1000 while `{"repeat_interval_ms": 500}` is persisted owns two live registrations, both at 500 | one registration per sensor, at the persisted interval | medium; not executed; assumes the framework's `load()` passes the saved document to `from_json` | RepeatSensor.ConstructAsWrittenDoubleRegisters | RepeatSensor.Construct |

=== FILE: bh1750.dfy ===
/** A stub of the BH1750 light meter as the read cycle sees it: a script of
    answers the device gives to successive `measurementReady` polls, and a
    trace of everything the sensor does to it (plus the cooperative yields it
    makes while waiting), in order.  The driver's internals, the I2C bus and
    the floating-point lux conversion are not modelled: a reading is an opaque
    value that the device hands over. */
module Bh1750 {

  type Byte = x: int | 0 <= x < 256

  /** The driver's measurement modes; the sensor only ever uses
      `OneTimeHighRes`. */
  datatype Mode =
    | ContinuousHighRes
    | ContinuousHighRes2
    | ContinuousLowRes
    | OneTimeHighRes
    | OneTimeHighRes2
    | OneTimeLowRes

  /** One answer to `measurementReady(true)`: not yet, or ready with the
      value the following `readLightLevel()` returns. */
  datatype Answer = NotReady | Ready(lux: real)

  /** One interaction recorded in the trace. */
  datatype Op =
    | Begin(mode: Mode, addr: Byte)   // `begin(mode, addr)`
    | PollReady(maxWait: bool)        // `measurementReady(maxWait)`
    | Yield                           // `yield()`
    | ReadLevel                       // `readLightLevel()`
    | Configure(mode: Mode)           // `configure(mode)`

  datatype Device = Device(script: seq<Answer>, trace: seq<Op>)

  /** The number of answers before the first `Ready`, or the whole script
      when there is none. */
  function LeadingNotReady(script: seq<Answer>): (k: nat)
    ensures k <= |script|
    ensures forall i :: 0 <= i < k ==> script[i].NotReady?
    ensures k < |script| ==> script[k].Ready?
  {
    if script == [] || script[0].Ready? then 0 else 1 + LeadingNotReady(script[1..])
  }

  /** The device becomes ready at some point of the script. */
  predicate EventuallyReady(script: seq<Answer>) {
    exists i :: 0 <= i < |script| && script[i].Ready?
  }
}

=== FILE: event_loop.dfy ===
/** An abstraction of the cooperative event loop's registry of repeating
    events.  Timing is not modelled: a registration is an id mapped to the
    interval it repeats at, the object whose lambda it runs (its owner, the
    C++ `this` the lambda captures), and which of the owner's callbacks the
    lambda invokes. */
module EventLoop {

  type EventId = nat

  /** Identity of the object a registered lambda captured. */
  type OwnerId = nat

  /** 32-bit unsigned interval, as `unsigned int` on the target. */
  type UInt32 = x: int | 0 <= x < 0x1_0000_0000

  /** What a registered lambda does when it fires. */
  datatype Action =
    | EmitReturned   // `this->emit(this->returning_callback_())`
    | CallEmitting   // `emitting_callback_(this)`

  datatype RepeatEvent = RepeatEvent(owner: OwnerId, interval: UInt32, action: Action)

  /** The live registrations; `next` is the id the next registration receives. */
  datatype Loop = Loop(events: map<EventId, RepeatEvent>, next: EventId)

  /** Every live id was handed out before `next`, so `next` is fresh. */
  ghost predicate Valid(l: Loop) {
    forall id :: id in l.events ==> id < l.next
  }

  /** The ids of the live registrations whose lambdas captured `owner`. */
  function Owned(l: Loop, owner: OwnerId): set<EventId> {
    set id | id in l.events && l.events[id].owner == owner
  }

  /** An empty loop, as at start-up. */
  function Empty(): (l: Loop)
    ensures Valid(l)
    ensures forall o: OwnerId :: Owned(l, o) == {}
  {
    Loop(map[], 0)
  }

  /** Registers a new repeating event and returns its handle. */
  function OnRepeat(l: Loop, owner: OwnerId, interval: UInt32, action: Action): (r: (Loop, EventId))
    requires Valid(l)
    ensures Valid(r.0)
    ensures r.1 !in l.events
    ensures r.0.events == l.events[r.1 := RepeatEvent(owner, interval, action)]
    ensures Owned(r.0, owner) == Owned(l, owner) + {r.1}
    ensures forall o :: o != owner ==> Owned(r.0, o) == Owned(l, o)
  {
    var id := l.next;
    var l' := Loop(l.events[id := RepeatEvent(owner, interval, action)], l.next + 1);
    assert Owned(l', owner) == Owned(l, owner) + {id};
    (l', id)
  }

  /** Removes a registration.  Removing a handle that is not live is not
      defined by the loop; the model leaves the loop as it is. */
  function Remove(l: Loop, id: EventId): (l': Loop)
    requires Valid(l)
    ensures Valid(l')
    ensures id !in l'.events
    ensures forall e :: e != id ==> (e in l'.events <==> e in l.events)
    ensures forall e :: e in l'.events ==> l'.events[e] == l.events[e]
    ensures forall o :: Owned(l', o) == Owned(l, o) - {id}
  {
    Loop(l.events - {id}, l.next)
  }
}

=== FILE: illuminance.dfy ===
/** Naming of a light sensor's Signal K output from its location: the Signal
    K path, the configuration path and the status-page title.  Each function
    special-cases "inside" and "outside" with fixed strings and otherwise
    builds the string from a prefix, the location and a suffix. */
module Illuminance {
  import opened Wrappers

  /** Signal K 1.7.0 path for outside illuminance. */
  const SkPathOutside: string := "environment.outside.illuminance"
  /** Signal K 1.7.0 path for inside illuminance. */
  const SkPathInside: string := "environment.inside.illuminance"

  const UIGroup: string := "Illuminance Sensors"
  const Unit: string := "lux"
  /** The value the status-page item shows before the first reading. */
  const StatusInitial: real := -1.0

  const SkPrefix: string := "environment."
  const SkSuffix: string := ".illuminance"
  const ConfigPrefix: string := "/config/output/"
  const ConfigSuffix: string := "/illuminance"
  const StatusPrefix: string := "Value sent to SK from '"
  const StatusSuffix: string := "' light sensor"

  /** `pre + x + suf`, the general formula all three names follow. */
  function Wrap(pre: string, x: string, suf: string): (s: string)
    ensures |s| == |pre| + |x| + |suf|
    ensures s[..|pre|] == pre && s[|pre|..|pre| + |x|] == x && s[|pre| + |x|..] == suf
  {
    pre + x + suf
  }

  /** The middle of `s` when it starts with `pre` and ends with `suf`
      (without the two overlapping). */
  function Unwrap(pre: string, suf: string, s: string): (r: Option<string>)
    ensures r.Some? <==> |s| >= |pre| + |suf| && s[..|pre|] == pre && s[|s| - |suf|..] == suf
    ensures r.Some? ==> |r.value| == |s| - |pre| - |suf|
  {
    if |s| >= |pre| + |suf| && s[..|pre|] == pre && s[|s| - |suf|..] == suf
    then Some(s[|pre|..|s| - |suf|])
    else None
  }

  /** Whatever unwraps is the wrapping of what it unwraps to. */
  lemma WrapUnwrap(pre: string, suf: string, s: string)
    requires Unwrap(pre, suf, s).Some?
    ensures Wrap(pre, Unwrap(pre, suf, s).value, suf) == s
  {
  }

  /** `get_sk_path_for_location`: the special cases agree with the general
      formula, so every location gets "environment.<location>.illuminance". */
  function SkPathForLocation(location: string): (p: string)
    ensures p == Wrap(SkPrefix, location, SkSuffix)
  {
    if location == "inside" then
      var p := SkPathInside;
      assert p == SkPrefix + location + SkSuffix;
      p
    else if location == "outside" then
      var p := SkPathOutside;
      assert p == SkPrefix + location + SkSuffix;
      p
    else Wrap(SkPrefix, location, SkSuffix)
  }

  /** `get_sk_out_config_path`: "/config/output/<location>/illuminance" for
      every location, the special cases included. */
  function SkOutConfigPath(location: string): (p: string)
    ensures p == Wrap(ConfigPrefix, location, ConfigSuffix)
  {
    if location == "inside" then
      var p := "/config/output/inside/illuminance";
      assert p == ConfigPrefix + location + ConfigSuffix;
      p
    else if location == "outside" then
      var p := "/config/output/outside/illuminance";
      assert p == ConfigPrefix + location + ConfigSuffix;
      p
    else Wrap(ConfigPrefix, location, ConfigSuffix)
  }

  /** `get_status_page_item_name`: "Value sent to SK from '<location>' light
      sensor" for every location, the special cases included. */
  function StatusPageItemName(location: string): (p: string)
    ensures p == Wrap(StatusPrefix, location, StatusSuffix)
  {
    if location == "inside" then
      var p := "Value sent to SK from 'inside' light sensor";
      assert p == StatusPrefix + location + StatusSuffix;
      p
    else if location == "outside" then
      var p := "Value sent to SK from 'outside' light sensor";
      assert p == StatusPrefix + location + StatusSuffix;
      p
    else Wrap(StatusPrefix, location, StatusSuffix)
  }

  /** The location a Signal K illuminance path was built from, if any. */
  function LocationOfSkPath(p: string): (r: Option<string>)
    ensures r.Some? ==> SkPathForLocation(r.value) == p
  {
    var r := Unwrap(SkPrefix, SkSuffix, p);
    if r.Some? then WrapUnwrap(SkPrefix, SkSuffix, p); r else r
  }

  /** Stripping prefix and suffix from a location's Signal K path recovers
      the location; so distinct locations get distinct paths. */
  lemma SkPathRecoversLocation(location: string, other: string)
    ensures LocationOfSkPath(SkPathForLocation(location)) == Some(location)
    ensures SkPathForLocation(location) == SkPathForLocation(other) ==> location == other
  {
  }

  /** The configuration path and the status title determine the location too. */
  lemma ConfigAndStatusRecoverLocation(location: string)
    ensures Unwrap(ConfigPrefix, ConfigSuffix, SkOutConfigPath(location)) == Some(location)
    ensures Unwrap(StatusPrefix, StatusSuffix, StatusPageItemName(location)) == Some(location)
  {
  }

  /** A Signal K illuminance output with its configuration and status item. */
  datatype Output = Output(
    location: string,
    skPath: string,
    configPath: string,
    unit: string,
    statusName: string,
    statusValue: real,
    statusGroup: string,
    configTitle: string)

  /** The four-argument constructor: a float output at `skPath` in lux, a
      status item named `statusName` in the illuminance group, and a
      configuration title naming the location. */
  function NewOutputWith(location: string, skPath: string, configPath: string, statusName: string): (o: Output)
    ensures o.location == location && o.skPath == skPath && o.configPath == configPath
    ensures o.statusName == statusName && o.unit == "lux"
    ensures o.statusValue == -1.0 && o.statusGroup == "Illuminance Sensors"
    ensures o.configTitle == "SK Output for '" + location + "' illuminance"
  {
    Output(location, skPath, configPath, Unit, statusName, StatusInitial, UIGroup,
           "SK Output for '" + location + "' illuminance")
  }

  /** The one-argument constructor derives all three names from the same
      location; the location can be read back from the Signal K path. */
  function NewOutput(location: string): (o: Output)
    ensures o.skPath == "environment." + location + ".illuminance"
    ensures o.configPath == "/config/output/" + location + "/illuminance"
    ensures o.statusName == "Value sent to SK from '" + location + "' light sensor"
    ensures o.unit == "lux" && o.location == location
    ensures LocationOfSkPath(o.skPath) == Some(o.location)
  {
    SkPathRecoversLocation(location, location);
    NewOutputWith(location, SkPathForLocation(location), SkOutConfigPath(location), StatusPageItemName(location))
  }
}

=== FILE: json.dfy ===
/** The slice of a JSON configuration document the sensors read and write:
    an object whose members are looked up by key, where a missing member reads
    as null. */
module Json {
  import opened Wrappers
  import opened EventLoop

  datatype JsonValue =
    | Null
    | Bool(b: bool)
    | Integer(i: int)
    | Number(x: real)
    | Str(s: string)

  type Doc = map<string, JsonValue>

  /** The one configuration member both sensors recognise. */
  const IntervalKey: string := "repeat_interval_ms"

  /** `doc[key]`: a missing member reads as null. */
  function Lookup(doc: Doc, key: string): (v: JsonValue)
    ensures key in doc ==> v == doc[key]
    ensures key !in doc ==> v.Null?
  {
    if key in doc then doc[key] else Null
  }

  /** `v.is<unsigned int>()`: an integer that fits in 32 unsigned bits. */
  predicate IsUInt(v: JsonValue) {
    v.Integer? && 0 <= v.i < 0x1_0000_0000
  }

  /** The configured interval, when `repeat_interval_ms` holds an unsigned int. */
  function ReadInterval(doc: Doc): (r: Option<UInt32>)
    ensures r.Some? <==> IntervalKey in doc && IsUInt(doc[IntervalKey])
    ensures r.Some? ==> doc[IntervalKey] == Integer(r.value)
  {
    var v := Lookup(doc, IntervalKey);
    if IsUInt(v) then Some(v.i as UInt32) else None
  }

  /** `doc["repeat_interval_ms"] = v`. */
  function WriteInterval(doc: Doc, v: UInt32): (doc': Doc)
    ensures ReadInterval(doc') == Some(v)
    ensures doc'.Keys == doc.Keys + {IntervalKey}
    ensures forall k :: k in doc && k != IntervalKey ==> doc'[k] == doc[k]
  {
    doc[IntervalKey := Integer(v)]
  }
}

=== FILE: light_sensor.dfy ===
/** The BH1750 light sensor: a repeat sensor of lux values, built with the
    returning callback form, whose callback waits for the device to finish a
    one-shot measurement, reads it and re-arms the device for the next one. */
module LightSensor {
  import opened Wrappers
  import opened EventLoop
  import opened Json
  import opened Bh1750
  import RS = RepeatSensor

  /** I2C address when the ADD pin is below 0.7 VCC. */
  const AddrVccLow: Byte := 0x23
  /** I2C address when the ADD pin is at or above 0.7 VCC. */
  const AddrVccHigh: Byte := 0x5C
  const AddrDefault: Byte := AddrVccLow

  const DefaultLocation: string := "outside"
  /** Read interval a new light sensor starts with, in milliseconds. */
  const DefaultReadInterval: UInt32 := 1000
  /** Diagnostic state a new sensor starts with and nothing changes. */
  const InitialPriorLux: real := -2.0
  const InitialPriorMTreg: Byte := 0x45

  /** The one mode the sensor arms the device in, at start and after every read. */
  const ArmMode: Mode := OneTimeHighRes

  datatype Light = Light(
    base: RS.Sensor,
    location: string,
    addr: Byte,
    priorLux: real,
    priorMTreg: Byte,
    title: string)     // the configuration item's title

  /** What one call of the read callback achieved. */
  datatype Reading =
    | Got(lux: real)   // the device became ready and was read
    | Pending          // the script ran out while the device was still busy

  /** Whether `begin` found the device, as the sensor logs it. */
  datatype BeginLog = Initialized | InitFailed

  /** `LightSensor(location, addr, config_path)`: a repeat sensor of the
      returning form at the default interval (or a persisted one), holding the
      address and the initial diagnostics. */
  function New(l: Loop, self: OwnerId, location: string, addr: Byte, stored: Option<Doc>): (r: (Light, Loop))
    requires Valid(l)
    ensures r.0.base.returning && !r.0.base.emitting
    ensures r.0.base.interval ==
      if stored.Some? && ReadInterval(stored.value).Some? then ReadInterval(stored.value).value
      else DefaultReadInterval
    ensures r.0.location == location && r.0.addr == addr
    ensures r.0.priorLux == InitialPriorLux && r.0.priorMTreg == InitialPriorMTreg
    ensures r.0.title == location + " light sensor"
    ensures Owned(l, self) == {} ==> RS.Sound(r.0.base, r.1) && r.1.events[r.0.base.event.value].action == EmitReturned
  {
    var st := RS.Construct(l, self, DefaultReadInterval, RS.ReturningForm, true, stored);
    (Light(st.sensor, location, addr, InitialPriorLux, InitialPriorMTreg, location + " light sensor"), st.loop)
  }

  /** A light sensor built with every default argument sits at the low
      address, reads "outside" and samples every second. */
  lemma NewDefaults(l: Loop, self: OwnerId)
    requires Valid(l) && Owned(l, self) == {}
    ensures var r := New(l, self, DefaultLocation, AddrDefault, None);
      && r.0.addr == 0x23 && r.0.addr != AddrVccHigh
      && r.0.base.interval == 1000
      && r.0.location == "outside"
      && Owned(r.1, self) == {r.0.base.event.value}
      && r.1.events[r.0.base.event.value] == RepeatEvent(self, 1000, EmitReturned)
  {
  }

  /** `begin()`: initialise the device in one-shot high-resolution mode at the
      stored address, once; `ok` is the device's answer.  A failure is only
      logged and the sensor keeps its registration. */
  function Begin(s: Light, d: Device, ok: bool): (r: (Device, BeginLog))
    ensures r.0.script == d.script
    ensures |r.0.trace| == |d.trace| + 1 && r.0.trace[..|d.trace|] == d.trace
    ensures r.0.trace[|d.trace|] == Bh1750.Begin(OneTimeHighRes, s.addr)
    ensures r.1 == Initialized <==> ok
  {
    (Device(d.script, d.trace + [Bh1750.Begin(ArmMode, s.addr)]), if ok then Initialized else InitFailed)
  }

  /** The trace of `n` polls that answered "not ready", each followed by a yield. */
  function WaitOps(n: nat): seq<Op> {
    if n == 0 then [] else WaitOps(n - 1) + [PollReady(true), Yield]
  }

  /** The trace once the device answers "ready": read once, then re-arm. */
  const ReadyOps: seq<Op> := [PollReady(true), ReadLevel, Configure(ArmMode)]

  /** `readLightLevel()`: poll until the device is ready, yielding after each
      negative answer, then read once, re-arm in one-shot high-resolution
      mode and return the reading unchanged.  When the script runs out first,
      the source would still be polling: the result is `Pending`, with no read
      and no re-arm. */
  method ReadLightLevel(d: Device) returns (r: Reading, d': Device)
    ensures r.Got? <==> EventuallyReady(d.script)
    ensures r.Got? ==>
      var k := LeadingNotReady(d.script);
      && (forall i :: 0 <= i < k ==> d.script[i].NotReady?)
      && d.script[k] == Ready(r.lux)
      && d' == Device(d.script[k + 1..], d.trace + WaitOps(k) + ReadyOps)
    ensures r.Pending? ==>
      && (forall i :: 0 <= i < |d.script| ==> d.script[i].NotReady?)
      && d' == Device([], d.trace + WaitOps(|d.script|))
  {
    var script := d.script;
    var trace := d.trace;
    var n := 0;
    while script != [] && script[0].NotReady?
      invariant n <= LeadingNotReady(d.script)
      invariant script == d.script[n..]
      invariant trace == d.trace + WaitOps(n)
      decreases |script|
    {
      trace := trace + [PollReady(true), Yield];
      script := script[1..];
      n := n + 1;
    }
    if script == [] {
      r, d' := Pending, Device([], trace);
    } else {
      r := Got(script[0].lux);
      d' := Device(script[1..], trace + [PollReady(true), ReadLevel, Configure(ArmMode)]);
    }
  }

  /** The shape of a waiting trace: polls and yields alternate, so there are
      exactly `n` yields and neither a read nor a configure. */
  lemma WaitOpsShape(n: nat)
    ensures |WaitOps(n)| == 2 * n
    ensures forall i :: 0 <= i < 2 * n ==> WaitOps(n)[i] == if i % 2 == 0 then PollReady(true) else Yield
    ensures multiset(WaitOps(n))[Yield] == n
    ensures multiset(WaitOps(n))[PollReady(true)] == n
    ensures ReadLevel !in WaitOps(n)
    ensures forall m :: Configure(m) !in WaitOps(n)
  {
    WaitOpsAlternate(n);
    WaitOpsCounts(n);
  }

  /** Polls sit at the even positions of a waiting trace, yields at the odd ones. */
  lemma {:induction false} WaitOpsAlternate(n: nat)
    ensures |WaitOps(n)| == 2 * n
    ensures forall i :: 0 <= i < 2 * n ==> WaitOps(n)[i] == if i % 2 == 0 then PollReady(true) else Yield
  {
    if n > 0 {
      WaitOpsAlternate(n - 1);
      var w := WaitOps(n - 1);
      assert WaitOps(n) == w + [PollReady(true), Yield];
      forall i | 0 <= i < 2 * n
        ensures WaitOps(n)[i] == if i % 2 == 0 then PollReady(true) else Yield
      {
        if i < 2 * n - 2 {
          assert WaitOps(n)[i] == w[i];
        } else if i == 2 * n - 2 {
          assert i % 2 == 0;
        } else {
          assert i % 2 == 1;
        }
      }
    }
  }

  /** A waiting trace holds `n` polls and `n` yields and nothing else. */
  lemma {:induction false} WaitOpsCounts(n: nat)
    ensures multiset(WaitOps(n))[Yield] == n
    ensures multiset(WaitOps(n))[PollReady(true)] == n
    ensures ReadLevel !in WaitOps(n)
    ensures forall m :: Configure(m) !in WaitOps(n)
  {
    if n > 0 {
      WaitOpsCounts(n - 1);
      var w := WaitOps(n - 1);
      assert WaitOps(n) == w + [PollReady(true), Yield];
      assert multiset(WaitOps(n)) == multiset(w) + multiset{PollReady(true), Yield};
    }
  }

  /** The trace one completed call appends after `k` negative polls: `k`
      yields, no read before the poll that answered "ready", then exactly one
      read followed by exactly one configure, and the device is left armed in
      one-shot high-resolution mode. */
  lemma {:induction false} ReadCycleTrace(k: nat)
    ensures var t := WaitOps(k) + ReadyOps;
      && |t| == 2 * k + 3
      && multiset(t)[Yield] == k
      && multiset(t)[ReadLevel] == 1
      && multiset(t)[Configure(ArmMode)] == 1
      && (forall m :: m != ArmMode ==> Configure(m) !in t)
      && (forall i :: 0 <= i < 2 * k + 1 ==> t[i].PollReady? || t[i].Yield?)
      && t[2 * k + 1] == ReadLevel
      && t[|t| - 1] == Configure(OneTimeHighRes)
  {
    WaitOpsShape(k);
    var t := WaitOps(k) + ReadyOps;
    assert multiset(t) == multiset(WaitOps(k)) + multiset(ReadyOps);
    forall m | m != ArmMode ensures Configure(m) !in t {
      assert Configure(m) !in ReadyOps;
    }
  }

  /** The override of `from_json`: a missing or non-unsigned
      `repeat_interval_ms` is refused and changes nothing; an unsigned one is
      applied through `set_repeat_interval_ms` and accepted. */
  function FromJson(s: Light, l: Loop, doc: Doc): (r: (bool, Light, Loop))
    requires Valid(l) && RS.Issued(s.base, l)
    ensures r.0 <==> ReadInterval(doc).Some?
    ensures !r.0 ==> r.1 == s && r.2 == l
    ensures r.0 ==> r.1.base.interval == ReadInterval(doc).value
    ensures r.0 ==> r.1.base.(interval := s.base.interval, event := s.base.event) == s.base
    ensures r.1.(base := s.base) == s
    ensures RS.Sound(s.base, l) ==> RS.Sound(r.1.base, r.2)
    ensures RS.Sound(s.base, l) && r.0 ==> r.2.events[r.1.base.event.value].interval == ReadInterval(doc).value
  {
    match ReadInterval(doc)
    case None => (false, s, l)
    case Some(v) =>
      var st := RS.SetRepeatIntervalMs(s.base, l, v);
      (true, s.(base := st.sensor), st.loop)
  }

  /** The override and the base `from_json` leave the sensor in the same
      state; they disagree only in what they report, exactly when the member
      is missing or not an unsigned int. */
  lemma FromJsonAgreesWithBase(s: Light, l: Loop, doc: Doc)
    requires Valid(l) && RS.Issued(s.base, l)
    ensures FromJson(s, l, doc).1.base == RS.FromJson(s.base, l, doc).1.sensor
    ensures FromJson(s, l, doc).2 == RS.FromJson(s.base, l, doc).1.loop
    ensures FromJson(s, l, doc).0 != RS.FromJson(s.base, l, doc).0 <==> ReadInterval(doc).None?
  {
  }

  /** The override of `to_json`: write the current interval; always succeeds. */
  function ToJson(s: Light, doc: Doc): (r: (bool, Doc))
    ensures r.0
    ensures ReadInterval(r.1) == Some(s.base.interval)
    ensures r.1.Keys == doc.Keys + {IntervalKey}
    ensures forall k :: k in doc && k != IntervalKey ==> k in r.1 && r.1[k] == doc[k]
  {
    (true, WriteInterval(doc, s.base.interval))
  }

  /** After an accepted configuration, the report gives back the applied
      interval, and the configuration is accepted iff it carries one. */
  lemma ConfigRoundTrip(s: Light, l: Loop, doc: Doc, out: Doc)
    requires RS.Sound(s.base, l)
    ensures var r := FromJson(s, l, doc);
      r.0 ==> ToJson(r.1, out).1[IntervalKey] == doc[IntervalKey]
    ensures FromJson(s, l, ToJson(s, out).1).0
    ensures FromJson(s, l, ToJson(s, out).1).1.base.interval == s.base.interval
  {
  }

  /** One firing of the sensor's registration `ev`: the returning lambda runs
      the read callback on the device and emits what it returns; while the
      device is still busy nothing is emitted.  Every light sensor's returning
      slot holds its read callback (see `New`). */
  method Fire(s: Light, ev: RepeatEvent, d: Device) returns (s': Light, d': Device)
    requires ev.owner == s.base.self && ev.action == EmitReturned
    requires s.base.returning
    ensures s'.(base := s.base) == s
    ensures s'.base.(output := s.base.output) == s.base
    ensures EventuallyReady(d.script) ==>
      s'.base.output == Some(d.script[LeadingNotReady(d.script)].lux)
    ensures !EventuallyReady(d.script) ==> s' == s
    ensures EventuallyReady(d.script) ==>
      multiset(d'.trace)[ReadLevel] == multiset(d.trace)[ReadLevel] + 1
      && d'.trace[|d'.trace| - 1] == Configure(OneTimeHighRes)
    ensures !EventuallyReady(d.script) ==>
      multiset(d'.trace)[ReadLevel] == multiset(d.trace)[ReadLevel]
  {
    var r;
    r, d' := ReadLightLevel(d);
    var k := LeadingNotReady(d.script);
    if r.Got? {
      ReadCycleTrace(k);
      s' := s.(base := RS.Fire(s.base, ev, r.lux, None).sensor);
      assert d'.trace == d.trace + (WaitOps(k) + ReadyOps);
      assert multiset(d'.trace) == multiset(d.trace) + multiset(WaitOps(k) + ReadyOps);
    } else {
      WaitOpsShape(|d.script|);
      s' := s;
      assert d'.trace == d.trace + WaitOps(|d.script|);
      assert multiset(d'.trace) == multiset(d.trace) + multiset(WaitOps(|d.script|));
    }
  }
}

=== FILE: repeat_sensor.dfy ===
/** A sensor that produces a value at a configurable interval by registering
    one repeating event with the event loop.  It is built with one of two
    callback forms: a returning callback, whose result the firing emits, or an
    emitting callback, which is handed the sensor and emits by itself.  The
    callbacks themselves are opaque; the model records which slot is set. */
module RepeatSensor {
  import opened Wrappers
  import opened EventLoop
  import opened Json

  /** The value a sensor produces.  The template is only instantiated with
      `float` (by the light sensor), so the model fixes it to an opaque real. */
  type Value = real

  /** The two constructor overloads. */
  datatype Form = ReturningForm | EmittingForm

  /** The lambda a constructor registers: it is chosen by the overload, even
      when the callback handed to it is empty. */
  function ConstructAction(form: Form): (a: Action)
    ensures a == EmitReturned <==> form == ReturningForm
  {
    match form
    case ReturningForm => EmitReturned
    case EmittingForm => CallEmitting
  }

  /** Errors the sensor logs instead of failing. */
  datatype Fault =
    | NullHandle    // reschedule found no held registration
    | NoCallback    // reschedule found neither callback slot set

  datatype Sensor = Sensor(
    self: OwnerId,            // identity captured by the registered lambdas
    interval: UInt32,         // repeat_interval_ms_
    returning: bool,          // returning_callback_ is non-null
    emitting: bool,           // emitting_callback_ is non-null
    event: Option<EventId>,   // repeat_event_, null as None
    output: Option<Value>)    // the last emitted value

  /** Sensor and event loop after an operation, with the errors it logged. */
  datatype Step = Step(sensor: Sensor, loop: Loop, faults: seq<Fault>)

  /** The lambda a registration of this sensor runs: the emitting callback
      wins when it is set. */
  function ActionOf(s: Sensor): Action {
    if s.emitting then CallEmitting else EmitReturned
  }

  /** The scheduling discipline: exactly one callback form is set, and the
      sensor owns exactly one live registration, the one it holds, which
      repeats at its interval and runs its callback form. */
  ghost predicate Sound(s: Sensor, l: Loop) {
    && Valid(l)
    && s.returning != s.emitting
    && s.event.Some?
    && s.event.value in l.events
    && l.events[s.event.value] == RepeatEvent(s.self, s.interval, ActionOf(s))
    && Owned(l, s.self) == {s.event.value}
  }

  /** The handle the sensor holds, if any, was issued by this loop to this
      sensor's own lambdas (it may since have been removed). */
  ghost predicate Issued(s: Sensor, l: Loop) {
    s.event.Some? ==>
      && s.event.value < l.next
      && (s.event.value in l.events ==> l.events[s.event.value].owner == s.self)
  }

  /** `reschedule()`: remove the held registration (logging an error when
      there is none), then install a replacement for whichever callback is set;
      with no callback set it logs an error and installs nothing. */
  function Reschedule(s: Sensor, l: Loop): (r: Step)
    requires Valid(l) && Issued(s, l)
    ensures Valid(r.loop) && Issued(r.sensor, r.loop)
    ensures NullHandle in r.faults <==> s.event.None?
    ensures NoCallback in r.faults <==> !s.returning && !s.emitting
    ensures r.sensor.(event := s.event) == s
    ensures s.event.Some? ==> s.event.value !in r.loop.events
    ensures s.returning || s.emitting ==>
      && r.sensor.event.Some?
      && r.sensor.event.value !in l.events
      && r.sensor.event.value in r.loop.events
      && r.loop.events[r.sensor.event.value] == RepeatEvent(s.self, s.interval, ActionOf(s))
      && Owned(r.loop, s.self) == Owned(l, s.self) - Held(s) + {r.sensor.event.value}
    ensures !s.returning && !s.emitting ==>
      r.sensor == s && Owned(r.loop, s.self) == Owned(l, s.self) - Held(s)
    ensures forall o :: o != s.self ==> Owned(r.loop, o) == Owned(l, o)
    ensures forall e :: e in l.events && Some(e) != s.event ==>
      e in r.loop.events && r.loop.events[e] == l.events[e]
  {
    var (l1, f1) := if s.event.Some? then (Remove(l, s.event.value), []) else (l, [NullHandle]);
    if s.emitting || s.returning then
      var (l2, id) := OnRepeat(l1, s.self, s.interval, ActionOf(s));
      Step(s.(event := Some(id)), l2, f1)
    else
      Step(s, l1, f1 + [NoCallback])
  }

  /** The held registration as a set. */
  function Held(s: Sensor): set<EventId> {
    if s.event.Some? then {s.event.value} else {}
  }

  /** `set_repeat_interval_ms(v)`: store `v`, then reschedule. */
  function SetRepeatIntervalMs(s: Sensor, l: Loop, v: UInt32): (r: Step)
    requires Valid(l) && Issued(s, l)
    ensures Valid(r.loop) && Issued(r.sensor, r.loop)
    ensures r.sensor.interval == v
    ensures r.sensor.(interval := s.interval, event := s.event) == s
    ensures r.loop == Reschedule(s.(interval := v), l).loop
    ensures Sound(s, l) ==> Sound(r.sensor, r.loop) && r.faults == []
    ensures Sound(s, l) ==> r.loop.events[r.sensor.event.value].interval == v
    ensures Sound(s, l) ==> s.event.value !in r.loop.events
  {
    Reschedule(s.(interval := v), l)
  }

  /** Rescheduling a sensor whose one registration may be stale in interval
      leaves it sound again, with no error logged. */
  lemma RescheduleKeepsSound(s: Sensor, l: Loop)
    requires Valid(l) && Issued(s, l)
    requires s.returning != s.emitting
    requires s.event.Some? && s.event.value in l.events
    requires Owned(l, s.self) == {s.event.value}
    ensures Sound(Reschedule(s, l).sensor, Reschedule(s, l).loop)
    ensures Reschedule(s, l).faults == []
  {
  }

  /** `from_json` of the base class: an unsigned `repeat_interval_ms` is
      applied through `set_repeat_interval_ms`; anything else leaves the
      sensor alone.  It always reports success. */
  function FromJson(s: Sensor, l: Loop, doc: Doc): (r: (bool, Step))
    requires Valid(l) && Issued(s, l)
    ensures r.0
    ensures Valid(r.1.loop) && Issued(r.1.sensor, r.1.loop)
    ensures ReadInterval(doc).None? ==> r.1 == Step(s, l, [])
    ensures ReadInterval(doc).Some? ==> r.1 == SetRepeatIntervalMs(s, l, ReadInterval(doc).value)
    ensures Sound(s, l) ==> Sound(r.1.sensor, r.1.loop)
    ensures ReadInterval(doc).Some? ==> r.1.sensor.interval == ReadInterval(doc).value
  {
    match ReadInterval(doc)
    case Some(v) => (true, SetRepeatIntervalMs(s, l, v))
    case None => (true, Step(s, l, []))
  }

  /** `to_json`: write the current interval into the document. */
  function ToJson(s: Sensor, doc: Doc): (r: (bool, Doc))
    ensures r.0
    ensures ReadInterval(r.1) == Some(s.interval)
    ensures r.1.Keys == doc.Keys + {IntervalKey}
    ensures forall k :: k in doc && k != IntervalKey ==> k in r.1 && r.1[k] == doc[k]
  {
    (true, WriteInterval(doc, s.interval))
  }

  /** `emit(v)`: the value becomes the sensor's output. */
  function Emit(s: Sensor, v: Value): (s': Sensor)
    ensures s'.output == Some(v)
    ensures s'.(output := s.output) == s
  {
    s.(output := Some(v))
  }

  /** What a firing comes to: the sensor afterwards, or a call of an empty
      `std::function`, which throws `std::bad_function_call`. */
  datatype Firing = Fired(sensor: Sensor) | BadFunctionCall

  /** One firing of a registration `ev` of this sensor.  `produced` is what
      the returning callback returns, and `emitted` the last value the
      emitting callback passes to `emit` during the call, if it emits at all:
      the returning lambda emits exactly `produced`; the emitting lambda
      leaves the output to its callback.  A lambda whose callback slot is
      empty calls an empty function. */
  function Fire(s: Sensor, ev: RepeatEvent, produced: Value, emitted: Option<Value>): (r: Firing)
    requires ev.owner == s.self
    ensures r.BadFunctionCall? <==>
      (ev.action == EmitReturned && !s.returning) || (ev.action == CallEmitting && !s.emitting)
    ensures r.Fired? && ev.action == EmitReturned ==> r.sensor.output == Some(produced)
    ensures r.Fired? && ev.action == CallEmitting && emitted.Some? ==> r.sensor.output == emitted
    ensures r.Fired? && ev.action == CallEmitting && emitted.None? ==> r.sensor == s
    ensures r.Fired? ==> r.sensor.(output := s.output) == s
  {
    match ev.action
    case EmitReturned =>
      if s.returning then Fired(Emit(s, produced)) else BadFunctionCall
    case CallEmitting =>
      if !s.emitting then BadFunctionCall
      else if emitted.Some? then Fired(Emit(s, emitted.value))
      else Fired(s)
  }

  /** The sensor as its fields are initialised, before any registration;
      `present` tells whether the callback handed to the constructor is
      non-empty. */
  function Fields(self: OwnerId, interval: UInt32, form: Form, present: bool): (s: Sensor)
    ensures s.returning <==> form == ReturningForm && present
    ensures s.emitting <==> form == EmittingForm && present
    ensures s.event.None? && s.output.None?
  {
    Sensor(self, interval, form == ReturningForm && present, form == EmittingForm && present, None, None)
  }

  /** Both constructors as written: store the interval and callback, call
      `load()` (which hands a persisted configuration, if any, to this class's
      `from_json`), then register one event and hold its handle. */
  function ConstructAsWritten(l: Loop, self: OwnerId, interval: UInt32, form: Form, present: bool,
                              stored: Option<Doc>): (r: Step)
    requires Valid(l)
    ensures Valid(r.loop) && Issued(r.sensor, r.loop)
    ensures r.sensor.event.Some? && r.sensor.event.value in r.loop.events
    ensures r.loop.events[r.sensor.event.value] == RepeatEvent(self, r.sensor.interval, ConstructAction(form))
    ensures stored.None? || ReadInterval(stored.value).None? ==>
      r == Construct(l, self, interval, form, present, stored)
    ensures stored.None? || ReadInterval(stored.value).None? ==>
      |Owned(r.loop, self) - Owned(l, self)| == 1 && r.faults == []
  {
    var s0: Sensor := Fields(self, interval, form, present);
    var loaded := if stored.Some? then FromJson(s0, l, stored.value).1 else Step(s0, l, []);
    var (l2, id) := OnRepeat(loaded.loop, self, loaded.sensor.interval, ConstructAction(form));
    Step(loaded.sensor.(event := Some(id)), l2, loaded.faults)
  }

  /** Constructing with a persisted `repeat_interval_ms` leaves the new sensor
      owning two live registrations: the one `load()` installed through
      `reschedule` (after logging a null handle) and the one the constructor
      installs over it. */
  lemma ConstructAsWrittenDoubleRegisters(l: Loop, self: OwnerId, interval: UInt32, form: Form, doc: Doc)
    requires Valid(l) && Owned(l, self) == {}
    requires ReadInterval(doc).Some?
    ensures var r := ConstructAsWritten(l, self, interval, form, true, Some(doc));
      |Owned(r.loop, self)| == 2 && r.faults == [NullHandle] && !Sound(r.sensor, r.loop)
  {
  }

  /** A concrete instance: a returning sensor built with interval 1000 on an
      empty loop, with 500 persisted, owns registrations 0 and 1. */
  lemma ConstructAsWrittenExample()
    ensures var r := ConstructAsWritten(Empty(), 7, 1000, ReturningForm, true, Some(map[IntervalKey := Integer(500)]));
      Owned(r.loop, 7) == {0, 1} && r.loop.events[0].interval == 500 && r.loop.events[1].interval == 500
  {
  }

  /** The constructors with the double registration removed: a persisted
      interval is adopted as the initial interval and exactly one event is
      registered, running the lambda of the overload chosen. */
  function Construct(l: Loop, self: OwnerId, interval: UInt32, form: Form, present: bool,
                     stored: Option<Doc>): (r: Step)
    requires Valid(l)
    ensures Valid(r.loop) && Issued(r.sensor, r.loop)
    ensures r.faults == []
    ensures r.sensor.returning <==> form == ReturningForm && present
    ensures r.sensor.emitting <==> form == EmittingForm && present
    ensures r.sensor.output.None?
    ensures r.sensor.interval ==
      if stored.Some? && ReadInterval(stored.value).Some? then ReadInterval(stored.value).value else interval
    ensures r.sensor.event.Some? && r.sensor.event.value !in l.events
    ensures r.sensor.event.value in r.loop.events
    ensures r.loop.events[r.sensor.event.value] == RepeatEvent(self, r.sensor.interval, ConstructAction(form))
    ensures Owned(r.loop, self) == Owned(l, self) + {r.sensor.event.value}
    ensures forall o :: o != self ==> Owned(r.loop, o) == Owned(l, o)
    ensures Owned(l, self) == {} && present ==> Sound(r.sensor, r.loop)
  {
    var v := if stored.Some? && ReadInterval(stored.value).Some? then ReadInterval(stored.value).value else interval;
    var s0: Sensor := Fields(self, v, form, present);
    var (l2, id) := OnRepeat(l, self, v, ConstructAction(form));
    Step(s0.(event := Some(id)), l2, [])
  }

  /** A sensor constructed with an empty callback still registers its lambda,
      but its first reschedule removes that registration, logs that no
      callback is set and installs nothing: the sensor then owns no live
      registration and holds a handle that is no longer live. */
  lemma EmptyCallbackLosesRegistration(l: Loop, self: OwnerId, interval: UInt32, form: Form, stored: Option<Doc>)
    requires Valid(l) && Owned(l, self) == {}
    ensures var c := Construct(l, self, interval, form, false, stored);
      && Owned(c.loop, self) == {c.sensor.event.value}
      && var r := Reschedule(c.sensor, c.loop);
      && r.faults == [NoCallback]
      && Owned(r.loop, self) == {}
      && r.sensor.event == c.sensor.event
      && c.sensor.event.value !in r.loop.events
  {
  }

  /** Reporting the configuration after applying one reports the applied
      interval, and the sensor stays sound. */
  lemma FromJsonThenToJson(s: Sensor, l: Loop, doc: Doc, out: Doc)
    requires Sound(s, l)
    requires ReadInterval(doc).Some?
    ensures var r := FromJson(s, l, doc).1;
      ToJson(r.sensor, out).1[IntervalKey] == doc[IntervalKey] && Sound(r.sensor, r.loop)
  {
  }

  /** Feeding a sensor its own report changes nothing but the handle: the
      interval, the callbacks and soundness are kept, and the old handle is
      retired. */
  lemma ToJsonThenFromJson(s: Sensor, l: Loop, doc: Doc)
    requires Sound(s, l)
    ensures var r := FromJson(s, l, ToJson(s, doc).1).1;
      && r.sensor.(event := s.event) == s
      && Sound(r.sensor, r.loop)
      && s.event.value !in r.loop.events
  {
  }

  /** Rescheduling one sensor keeps every other sound sensor sound. */
  lemma RescheduleFramesOthers(s: Sensor, t: Sensor, l: Loop)
    requires Valid(l) && Issued(s, l) && t.self != s.self && Sound(t, l)
    ensures Sound(t, Reschedule(s, l).loop)
  {
  }
}

=== FILE: wrappers.dfy ===
/** Optional values: the nullable handle a sensor holds into the event loop,
    a configuration value that may be absent, and the result of a parse that
    may fail. */
module Wrappers {

  datatype Option<+T> = None | Some(value: T)
}
